=== FILE: README.md ===
# nexusClone servo registry and motion controller, in Dafny

This project models the servo part of the `nexusClone` MakeCode extension. The extension drives up to twelve hobby servos through a PCA9685 PWM chip on the Nexus:bit and Thunder:bit boards.

The model has two layers:

- **Servo registry** (`registry.dfy`). Five parallel twelve-entry arrays hold each channel's default, current degree, minimum, maximum and gradual step. The registry also holds the active channel count chosen by the board selection, the one-time driver initialisation flag, and the PCA9685 driver calls issued so far. The state is an immutable `Registry` datatype, and every operation is a pure function from registry to registry. `Consistent` is the invariant: each channel has `0 <= min <= default <= max <= 180` and a step in `[0, 180]`. The current degree is deliberately left out of the invariant, because reconfiguring a channel never re-clamps it.
- **Motion controller**:
  - `motion.dfy`: immediate positioning (`servoTo` and its wrappers), the position and arrival queries, and one gradual step.
  - `gradual.dfy`: the pure arithmetic of a gradual step and its iteration.
  - `bulk.dfy`: the immediate bulk moves.
  - `convergence.dfy`: the per-tick multi-servo pass and the blocking convergence loop, written as an imperative method whose `decreases` clause is the summed remaining distance.

Servo numbers are one-based at every operation, as in the source. Degrees are unbounded integers. `Math.constrain` is `Numeric.Constrain`, which tests the low bound first.

Several single-servo operations read a channel's bound or default before `servoTo` or `ServoIsAtDegree` checks the servo number. For an inactive servo number, that value never reaches the registry. The model therefore gives every servo number a defined result: the driver initialisation only, for moves, and `false`, for queries. It does not require a valid number. `BoundOf` and `DeflOf` stand in 0 for a read outside the arrays.

## Model

| member | source | states |
|---|---|---|
| ServoRegistry.Init | nexusClone.ts:29-39 | Start-up: twelve active channels, each at 90 degrees with default 90, bounds [0, 180] and step 5; the invariant holds and no driver call has been made |
| ServoRegistry.SelectBoard | nexusClone.ts:49-65 | Selecting a board sets the active count to 12, 8 or 4 and leaves every array, the driver log, the driver-initialised flag and the invariant as they were |
| ServoRegistry.ServoCountInjective | nexusClone.ts:51-60 | The three boards have three different channel counts |
| ServoRegistry.ServoConfig | nexusClone.ts:76-83 | A valid servo gets min = clamp(minDegree, 0, 180), and max = the larger of that and clamp(maxDegree, 0, 180). The raw-minimum test therefore behaves like a test against the clamped minimum, and max collapses to min when the clamped max is below minDegree. Default = clamp(deflDegree, min, max), step = clamp(delta, 0, 180). The channel is left within bounds, no other channel, no current degree, the driver log and the driver-initialised flag do not change, and an invalid servo changes nothing |
| ServoRegistry.ServoConfigExamples | nexusClone.ts:78-80 | Default 200 is stored as 180; min 100 with max 50 stores max 100 and pulls the default up to 100 |
| ServoRegistry.AdjustedDefault | nexusClone.ts:88 | A shifted default stays within bounds, takes the shifted value when it fits, stops at the maximum or minimum it would overshoot, and never moves against the shift's sign |
| ServoRegistry.ServosDeflAdjust | nexusClone.ts:86-89 | A missing or over-long array changes nothing. Otherwise only the first len defaults change, each stays within its bounds, equals default + shift when that fits, and otherwise equals the bound the shift overshoots. No other field changes, the driver log and driver-initialised flag included, and the invariant is kept |
| ServoRegistry.DeflAdjustByZero | nexusClone.ts:86-89 | Adjusting by an all-zero array is the identity |
| ServoRegistry.ServoSetDelta | nexusClone.ts:92-95 | A missing or over-long array changes nothing. Otherwise exactly the present, positive entries replace their channel's step, which ends in (0, 180] (equal to the entry, or 180 when larger), and every other step, the defaults, the driver log and the driver-initialised flag stay |
| ServoRegistry.SetDeltaIdempotent | nexusClone.ts:92-95 | Applying the same step array twice equals applying it once |
| Motion.Initialize | nexusClone.ts:41-46 | The first initialisation records one driver reset at address 106, and later ones change nothing |
| Motion.InitializeIdempotent | nexusClone.ts:41-46 | Initialising twice is initialising once, so the driver is reset at most once |
| Motion.ServoTo | nexusClone.ts:98-105 | A valid servo's current degree becomes clamp(degree, min, max), which lies within bounds, and one position command with that degree is logged. No other channel or configuration changes. An invalid servo number only initialises the driver |
| Motion.ServoToThenGet | nexusClone.ts:98-110 | Reading back after servoTo returns exactly the clamped degree for a valid servo and 0 for an invalid one |
| Motion.GetThenIsAt | nexusClone.ts:108-110 | getServoCurrent reads the current degree of a valid servo, which ServoIsAtDegree then confirms; an invalid servo reads 0 and is never reported at that degree |
| Motion.ServoToCurrentKeeps | nexusClone.ts:98-110 | Sending an in-range servo to its own current degree changes no current degree |
| Motion.ServoToRepeat | nexusClone.ts:98-105 | Repeating a servoTo leaves the degrees where the first call put them |
| Motion.ServoToMinMax | nexusClone.ts:113-115 | A valid servo ends exactly at its configured min or max, and nothing else moves |
| Motion.ServoDeltaFromDefl | nexusClone.ts:118-120 | A valid servo ends exactly at default + delta clamped into its bounds, hence at default + delta when that fits and at its default for delta 0; nothing else moves |
| Motion.ServoIsAtDegree | nexusClone.ts:136-139 | A true answer implies a valid servo number |
| Motion.IsAtDegreePolarity | nexusClone.ts:136-139 | For a valid servo the false-polarity answer is the negation of the true-polarity one, and the true-polarity answer holds iff the servo is at that degree. An invalid servo answers false for both polarities |
| Motion.ServoIsAtMinMax | nexusClone.ts:147-149 | True iff the servo is valid and its being at the chosen bound agrees with the polarity |
| Motion.ServoIsDeltaFromDefl | nexusClone.ts:165-167 | True iff the servo is valid and its being at the unclamped default + delta agrees with the polarity |
| Motion.ToMinMaxThenIsAt | nexusClone.ts:113-149 | After servoToMinMax the servo reports being at that bound |
| Motion.ServoSlowTurn | nexusClone.ts:123-133 | For a valid servo starting within bounds, let t be the clamped target. The new degree lies between the old degree and t, stays within bounds, and its distance to t is the old distance less one step, floored at 0. So the servo moves at most one step, never overshoots, lands on t when t is within a step, and stays put at t. Other channels and the configuration are unchanged |
| Motion.ServoSlowTurnMinMax | nexusClone.ts:142-144 | The same single-step guarantee toward the chosen bound |
| Motion.ServoSlowTurnDeltaFromDefl | nexusClone.ts:152-162 | The same single-step guarantee toward default + delta clamped into the bounds |
| Motion.SlowTurnDeltaIsSlowTurn | nexusClone.ts:123-162 | The relative gradual turn is the absolute gradual turn aimed at default + delta |
| Motion.SlowTurnDeltaChannel | nexusClone.ts:152-162 | A relative gradual turn's result depends on the servo's own channel alone |
| Motion.SlowTurnFromOutsideJumps | nexusClone.ts:76-133 | Reconfiguring does not re-clamp the current degree: servo 1 sent to 10 and then given bounds [50, 180] and step 5 stays at 10, and its next gradual turn toward 90 jumps 40 degrees, to 50 |
| Motion.SlowTurnTimesFollowsSteps | nexusClone.ts:123-133 | Repeated gradual turns of an in-range servo follow the pure step sequence toward the clamped target and stay within bounds |
| Motion.SlowTurnArrives | nexusClone.ts:123-133 | With step > 0, an in-range servo reaches the clamped target after exactly ceil(distance / step) turns, not earlier, and stays there on every later turn |
| Motion.StartupSlowTurnExamples | nexusClone.ts:123-133 | From start-up, a target of 120 is reached on the 6th turn and kept on the 7th; a target of 113 is at 110 after 4 turns and reached on the 5th |
| Motion.ZeroStepSlowTurnStalls | nexusClone.ts:126-131 | With step 0 an in-range servo never moves |
| Gradual.NextDegree | nexusClone.ts:125-131 | The commanded degree lies between the current degree and the target, at the old distance less one step (floored at 0), and so at most one step from the current degree |
| Gradual.NextDegreeUnique | nexusClone.ts:125-131 | Those two properties determine the commanded degree uniquely |
| Gradual.ZeroStepStalls | nexusClone.ts:129-131 | With step 0 the commanded degree is the current one |
| Gradual.StepsClosedForm | nexusClone.ts:125-131 | After k steps the degree is the target if it was within k·step, and otherwise has moved exactly k·step toward it |
| Gradual.StepsStayAtTarget | nexusClone.ts:126-131 | Steps from the target stay at the target |
| Gradual.ArrivalAfterCeil | nexusClone.ts:125-131 | With step > 0 the target is reached after exactly ceil(distance / step) steps and not before |
| Gradual.StepThenClampCloser | nexusClone.ts:124-131 | For a target within bounds and step > 0, one step followed by servoTo's clamp strictly shortens the distance, even from outside the bounds |
| Bulk.SnapPrefix | nexusClone.ts:211-215 | servoTo applied in order to the present entries of a prefix leaves each such channel at its own clamped target, every other channel unchanged and the configuration unchanged |
| Bulk.ServosToDefl | nexusClone.ts:205-208 | Every active servo ends at its default, inactive ones keep their degrees, and the invariant is kept |
| Bulk.ToDeflThenAtDefl | nexusClone.ts:205-208 | Afterwards every active servo reports being at default + 0 |
| Bulk.ServosToDegree | nexusClone.ts:211-216 | A missing or over-long array moves nothing. Otherwise each present entry's servo ends exactly at the entry clamped into its bounds, and absent entries and later channels keep their degrees |
| Bulk.ServosToDeltaFromDefl | nexusClone.ts:219-224 | As ServosToDegree, with target default + entry |
| Convergence.Pass | nexusClone.ts:176-183 | One pass keeps the invariant and the configuration |
| Convergence.PassCurrents | nexusClone.ts:176-183 | The in-order pass equals a simultaneous update: each listed channel away from its target takes one step computed from the starting registry, and all others keep their degrees |
| Convergence.PassReports | nexusClone.ts:176-184 | A pass reports movement iff some listed channel was away from its target at the start |
| Convergence.ServoSlowTurnDeltaFromDeflAndCheck | nexusClone.ts:191-202 | Returns true iff some channel in the array is not at its unclamped default + delta. Each such channel gets exactly one gradual step and every other channel keeps its degree. A missing or over-long array returns false and changes nothing |
| Convergence.ChannelStepCloser | nexusClone.ts:152-166 | A listed channel away from its reachable target, with step > 0, gets strictly closer in one pass |
| Convergence.RemainingDecreases | nexusClone.ts:174-186 | The loop measure (summed distance to targets) drops when no channel gets further and one gets closer |
| Convergence.PassProgress | nexusClone.ts:174-186 | If every listed target is reachable and every listed step is positive, a pass that reports movement lowers the loop measure |
| Convergence.PassKeepsSettles | nexusClone.ts:152-188 | A pass never steps a listed servo already at its compared target and changes no configuration, so every listed servo stays either at its target or able to reach it |
| Convergence.ServosSlowTurnDeltaFromDefl | nexusClone.ts:170-188 | The blocking loop terminates when every listed servo not already at default + delta has that target within bounds and a positive step. Afterwards every listed channel is exactly at default + delta, the others are unchanged, and the configuration is unchanged. A missing or over-long array changes nothing |
| Convergence.PassKeepsStuck | nexusClone.ts:166-184 | A channel whose default + delta lies outside its bounds and whose degree is within them stays that way through a pass, and the pass reports movement |
| Convergence.AsWrittenNeverSettles | nexusClone.ts:166-186 | For such a channel every pass, however many have run, reports movement, so the loop never breaks |
| Convergence.StepZeroOutsideSettles | nexusClone.ts:76-186 | A servo sent to 10 and then configured with default 50, bounds [50, 180] and step 0 fails the settle condition, yet one pass clamps it to 50 and the next reports no movement, so the as-written loop ends |
| Convergence.AsWrittenHangsOnOffset100 | nexusClone.ts:170-186 | Start-up registry with deltas [100]: every pass reports movement |
| Convergence.PassKeepsStalled | nexusClone.ts:81-184 | A listed in-range channel with step 0 that is away from its target is not moved by a pass, and the pass reports movement |
| Convergence.ZeroStepNeverSettles | nexusClone.ts:81-186 | Such a channel keeps the loop running forever |
| Convergence.ServosSlowTurnDeltaFromDeflClamped | nexusClone.ts:170-188 | With the comparison made against the clamped target, the loop terminates whenever every listed servo not already at its clamped target has a positive step, and leaves each listed channel at its clamped target |

## Left out

- PCA9685 driver: its reset and set-position calls are appended to the registry's `calls` log, not performed. The driver namespace in the source is empty.
- `info()` serial output, LED pin numbers and board-name strings: display and configuration only.
- `basic.pause(delay)` in the blocking loop and its `delay` argument: timing only.
- `return_null` and the block annotations: editor metadata.
- Non-integer degrees, `NaN` and JavaScript number semantics: degrees are integers.
- JavaScript `undefined` from reading an array outside its twelve entries: the model uses a stand-in 0 that every such path discards.
- The `_boardType` global: only the resulting channel count matters to the servo core.
- Convergence.PassCurrents: describes the current degrees after a pass, not the order of the driver calls it logs.
- Convergence.ServosSlowTurnDeltaFromDefl: requires every listed servo not already at default + delta to have that target within bounds and a positive step. For a servo whose current degree is inside its bounds the source loop otherwise never returns (AsWrittenNeverSettles, ZeroStepNeverSettles), and a Dafny method must terminate. For a servo left outside narrowed bounds the requirement is stricter than the source, whose loop can still end (StepZeroOutsideSettles).
- Motion.ServoSlowTurn: the at-most-one-step guarantee is stated for a servo that starts within its bounds, because from outside them the source's own clamp makes a longer jump (SlowTurnFromOutsideJumps). The same holds for Motion.ServoSlowTurnMinMax and Motion.ServoSlowTurnDeltaFromDefl.

## Findings

| source | as written | input that shows it | evidently intended | confidence | as-written member | corrected member |
|---|---|---|---|---|---|---|
| nexusClone.ts:166 | The blocking loop decides whether a servo is done by comparing it with the unclamped default + delta. Each step, however, heads for that value clamped into the servo's bounds | Servo 1 at start-up (default 90, bounds [0, 180], step 5) with deltas [100]: the servo stops at 180, is compared with 190 on every pass, and the loop never returns | Compare with the clamped target, so the loop stops once every servo reaches its bound | medium, not executed | Convergence.AsWrittenNeverSettles | Convergence.ServosSlowTurnDeltaFromDeflClamped |

The same comparison is made by `servoSlowTurnDeltaFromDeflAndCheck`. There it only makes the function keep returning true, and it is modelled as written.

=== FILE: bulk.dfy ===
/** The immediate bulk moves: every active servo to its default, and a
    prefix of servos to given degrees or to given offsets from their
    defaults. Each is a sequence of `servoTo` calls on servos 1, 2, ...;
    absent (null) entries are skipped. */
module Bulk {
  import opened Numeric
  import opened Options
  import opened ServoRegistry
  import opened Motion

  /** `servoTo(i + 1, targets[i])` for every present entry among the first
      `n`, in order. Every channel ends at its own clamped target, since
      each call touches its own channel only. */
  function SnapPrefix(r: Registry, targets: seq<Option<int>>, n: nat): (r': Registry)
    requires Shaped(r)
    requires n <= |targets| && n <= r.servoNum
    ensures Shaped(r') && SameConfig(r, r')
    ensures forall j :: 0 <= j < MaxServos ==>
              r'.current[j] == if j < n && targets[j].Some?
                               then Constrain(targets[j].value, r.minDeg[j], r.maxDeg[j])
                               else r.current[j]
    decreases n
  {
    if n == 0 then r
    else
      var r1 := SnapPrefix(r, targets, n - 1);
      match targets[n - 1]
      case None => r1
      case Some(d) => ServoTo(r1, n, d)
  }

  /** `servosToDefl`: every active servo goes home to its default; the
      inactive channels keep their degrees. */
  function ServosToDefl(r: Registry): (r': Registry)
    requires Consistent(r)
    ensures Consistent(r') && SameConfig(r, r')
    ensures forall j :: 0 <= j < MaxServos ==>
              r'.current[j] == if j < r.servoNum then r.defl[j] else r.current[j]
  {
    var r' := SnapPrefix(r, seq(r.servoNum, i requires 0 <= i < r.servoNum => Some(r.defl[i])), r.servoNum);
    ConsistentKeepsWithConfig(r, r');
    r'
  }

  /** After `servosToDefl` every active servo answers that it is at
      default plus zero. */
  lemma ToDeflThenAtDefl(r: Registry, servo: int)
    requires Consistent(r)
    requires ValidServo(r, servo)
    ensures ServoIsDeltaFromDefl(ServosToDefl(r), servo, 0, true)
  {
  }

  /** `servosToDegree`: each present entry `i` sends servo `i + 1` to that
      degree, clamped; a missing or over-long array moves nothing. */
  function ServosToDegree(r: Registry, degrees: Option<seq<Option<int>>>): (r': Registry)
    requires Consistent(r)
    ensures Consistent(r') && SameConfig(r, r')
    ensures !Accepted(r, degrees) ==> r' == r
    ensures forall j :: 0 <= j < MaxServos ==>
              if Accepted(r, degrees) && j < |degrees.value| && degrees.value[j].Some?
              then && InRange(r', j)
                   && r'.current[j] == Constrain(degrees.value[j].value, r.minDeg[j], r.maxDeg[j])
                   && (r.minDeg[j] <= degrees.value[j].value <= r.maxDeg[j] ==>
                         r'.current[j] == degrees.value[j].value)
              else r'.current[j] == r.current[j]
  {
    if !Accepted(r, degrees) then r
    else
      var r' := SnapPrefix(r, degrees.value, |degrees.value|);
      ConsistentKeepsWithConfig(r, r');
      r'
  }

  /** `servosToDeltaFromDefl`: each present entry `i` sends servo `i + 1`
      that many degrees from its default, clamped. */
  function ServosToDeltaFromDefl(r: Registry, deltas: Option<seq<Option<int>>>): (r': Registry)
    requires Consistent(r)
    ensures Consistent(r') && SameConfig(r, r')
    ensures !Accepted(r, deltas) ==> r' == r
    ensures forall j :: 0 <= j < MaxServos ==>
              if Accepted(r, deltas) && j < |deltas.value| && deltas.value[j].Some?
              then && InRange(r', j)
                   && r'.current[j] == Constrain(r.defl[j] + deltas.value[j].value, r.minDeg[j], r.maxDeg[j])
                   && (r.minDeg[j] <= r.defl[j] + deltas.value[j].value <= r.maxDeg[j] ==>
                         r'.current[j] == r.defl[j] + deltas.value[j].value)
              else r'.current[j] == r.current[j]
  {
    if !Accepted(r, deltas) then r
    else
      var ds := deltas.value;
      var targets := seq(|ds|, i requires 0 <= i < |ds| =>
                           match ds[i]
                           case None => None
                           case Some(d) => Some(r.defl[i] + d));
      var r' := SnapPrefix(r, targets, |ds|);
      ConsistentKeepsWithConfig(r, r');
      r'
  }

}

=== FILE: convergence.dfy ===
/** Gradual motion of several servos at once toward their defaults plus
    per-servo offsets: the per-tick pass that steps every servo not yet at
    its target, and the blocking loop that repeats passes until one moves
    nothing. */
module Convergence {
  import opened Numeric
  import opened Options
  import opened ServoRegistry
  import opened Gradual
  import opened Motion

  /** The degree a pass compares channel `j` with before stepping it. As
      written the pass compares with the unclamped default plus offset;
      the corrected pass compares with that value clamped into the bounds,
      which is where the step actually heads. */
  function CheckTarget(r: Registry, j: int, d: int, clamped: bool): int
    requires Shaped(r)
    requires 0 <= j < MaxServos
  {
    if clamped then Constrain(r.defl[j] + d, r.minDeg[j], r.maxDeg[j]) else r.defl[j] + d
  }

  /** Channel `j` has an offset in `ds` and is not yet at its target, so the
      pass steps it. */
  predicate Moves(r: Registry, ds: seq<Option<int>>, j: int, clamped: bool)
    requires Shaped(r)
  {
    0 <= j < |ds| && j < MaxServos && ds[j].Some? && r.current[j] != CheckTarget(r, j, ds[j].value, clamped)
  }

  /** One pass over the first `n` entries, in servo order: a present entry
      whose servo is away from its target gets one gradual step. Returns the
      new registry and whether any servo was stepped. */
  function Pass(r: Registry, ds: seq<Option<int>>, n: nat, clamped: bool): (p: (Registry, bool))
    requires Consistent(r)
    requires n <= |ds| && n <= r.servoNum
    ensures Consistent(p.0) && SameConfig(r, p.0)
    decreases n
  {
    if n == 0 then (r, false)
    else
      var prev := Pass(r, ds, n - 1, clamped);
      var r1 := prev.0;
      match ds[n - 1]
      case None => prev
      case Some(d) =>
        var away := if clamped
                    then ServoIsAtDegree(r1, n, Constrain(DeflOf(r1, n) + d, r1.minDeg[n - 1], r1.maxDeg[n - 1]), false)
                    else ServoIsDeltaFromDefl(r1, n, d, false);
        if away then
          var r2 := ServoSlowTurnDeltaFromDefl(r1, n, d);
          ConsistentKeepsWithConfig(r, r2);
          (r2, true)
        else prev
  }

  /** Since each step only touches its own channel, a pass acts as if every
      listed channel away from its target were stepped at once from the
      registry the pass started with. */
  lemma {:induction false} PassCurrents(r: Registry, ds: seq<Option<int>>, n: nat, clamped: bool)
    requires Consistent(r)
    requires n <= |ds| && n <= r.servoNum
    ensures forall j :: 0 <= j < MaxServos ==>
              Pass(r, ds, n, clamped).0.current[j] ==
                if j < n && Moves(r, ds, j, clamped) then SteppedDegree(r, j, ds[j].value) else r.current[j]
    decreases n
  {
    if n > 0 {
      PassCurrents(r, ds, n - 1, clamped);
      var r1 := Pass(r, ds, n - 1, clamped).0;
      var r2 := Pass(r, ds, n, clamped).0;
      var i := n - 1;
      assert r1.current[i] == r.current[i];
      assert Moves(r1, ds, i, clamped) == Moves(r, ds, i, clamped);
      if Moves(r, ds, i, clamped) {
        var d := ds[i].value;
        assert r2 == ServoSlowTurnDeltaFromDefl(r1, n, d);
        SlowTurnDeltaChannel(r1, n, d);
        assert r2.current[i] == SteppedDegree(r, i, d);
      } else {
        assert r2 == r1;
      }
      forall j | 0 <= j < MaxServos && j != i
        ensures r2.current[j] == r1.current[j]
      {
      }
    }
  }

  /** A pass reports movement exactly when some listed channel was away
      from its target when the pass started. */
  lemma {:induction false} PassReports(r: Registry, ds: seq<Option<int>>, n: nat, clamped: bool)
    requires Consistent(r)
    requires n <= |ds| && n <= r.servoNum
    ensures Pass(r, ds, n, clamped).1 <==> exists j :: 0 <= j < n && Moves(r, ds, j, clamped)
    decreases n
  {
    if n > 0 {
      PassReports(r, ds, n - 1, clamped);
      PassCurrents(r, ds, n - 1, clamped);
      var prev := Pass(r, ds, n - 1, clamped);
      var p := Pass(r, ds, n, clamped);
      var i := n - 1;
      assert prev.0.current[i] == r.current[i];
      assert Moves(prev.0, ds, i, clamped) == Moves(r, ds, i, clamped);
      if Moves(r, ds, i, clamped) {
        assert p.1;
      } else {
        assert p == prev;
      }
    }
  }

  /** `servoSlowTurnDeltaFromDeflAndCheck`: one as-written pass over every
      entry of a present array no longer than the active count. It reports
      true exactly when some listed servo was away from its default plus
      offset, and each such servo gets exactly one gradual step. */
  function ServoSlowTurnDeltaFromDeflAndCheck(r: Registry, delta: Option<seq<int>>): (p: (Registry, bool))
    requires Consistent(r)
    ensures Consistent(p.0) && SameConfig(r, p.0)
    ensures !Accepted(r, delta) ==> p == (r, false)
    ensures Accepted(r, delta) ==>
              (p.1 <==> exists i :: 0 <= i < |delta.value| && r.current[i] != r.defl[i] + delta.value[i])
    ensures Accepted(r, delta) ==>
              forall j :: 0 <= j < MaxServos ==>
                p.0.current[j] == if j < |delta.value| && r.current[j] != r.defl[j] + delta.value[j]
                                  then SteppedDegree(r, j, delta.value[j])
                                  else r.current[j]
  {
    if !Accepted(r, delta) then (r, false)
    else
      var ds := AllPresent(delta.value);
      PassCurrents(r, ds, |ds|, false);
      PassReports(r, ds, |ds|, false);
      Pass(r, ds, |ds|, false)
  }

  /** The entries of an array that has no null entries. */
  function AllPresent(a: seq<int>): (ds: seq<Option<int>>)
    ensures |ds| == |a|
    ensures forall i :: 0 <= i < |a| ==> ds[i] == Some(a[i])
  {
    seq(|a|, i requires 0 <= i < |a| => Some(a[i]))
  }

  /** Channel `j` with offset `d` either already sits at the target the
      pass compares it with, so it is never stepped, or can reach that
      target: its step is positive and (for the as-written check) the
      default plus offset lies inside its bounds. */
  predicate ChannelSettles(r: Registry, j: int, d: int, clamped: bool)
    requires Shaped(r)
    requires 0 <= j < MaxServos
  {
    || r.current[j] == CheckTarget(r, j, d, clamped)
    || (&& r.step[j] > 0
        && (!clamped ==> r.minDeg[j] <= r.defl[j] + d <= r.maxDeg[j]))
  }

  /** The blocking loop reaches every target: every listed channel is
      already there or can get there. */
  predicate Settles(r: Registry, ds: seq<Option<int>>, clamped: bool)
    requires Shaped(r)
  {
    forall j :: 0 <= j < |ds| && j < MaxServos && ds[j].Some? ==> ChannelSettles(r, j, ds[j].value, clamped)
  }

  /** A pass keeps `Settles`: a channel at its target is not stepped, and
      one that can reach its target keeps the configuration that lets it. */
  lemma PassKeepsSettles(r: Registry, ds: seq<Option<int>>, clamped: bool)
    requires Consistent(r)
    requires |ds| <= r.servoNum
    requires Settles(r, ds, clamped)
    ensures Settles(Pass(r, ds, |ds|, clamped).0, ds, clamped)
  {
    var r' := Pass(r, ds, |ds|, clamped).0;
    PassCurrents(r, ds, |ds|, clamped);
    forall j | 0 <= j < |ds| && j < MaxServos && ds[j].Some?
      ensures ChannelSettles(r', j, ds[j].value, clamped)
    {
      assert CheckTarget(r', j, ds[j].value, clamped) == CheckTarget(r, j, ds[j].value, clamped);
      if !Moves(r, ds, j, clamped) {
        assert r'.current[j] == r.current[j];
      }
    }
  }

  /** Total distance of the first `n` listed channels from the targets the
      pass compares them with; the blocking loop's termination measure. */
  function Remaining(r: Registry, ds: seq<Option<int>>, n: nat, clamped: bool): nat
    requires Shaped(r)
    requires n <= |ds| && n <= MaxServos
  {
    if n == 0 then 0
    else
      Remaining(r, ds, n - 1, clamped) +
      match ds[n - 1]
      case None => 0
      case Some(d) => Abs(CheckTarget(r, n - 1, d, clamped) - r.current[n - 1])
  }

  /** If no channel got further from its target and some channel got
      strictly closer, the total distance drops. */
  lemma {:induction false} RemainingDecreases(r: Registry, r': Registry, ds: seq<Option<int>>, n: nat, clamped: bool)
    requires Shaped(r) && Shaped(r') && SameConfig(r, r')
    requires n <= |ds| && n <= MaxServos
    requires forall j :: 0 <= j < n && ds[j].Some? ==>
               Abs(CheckTarget(r, j, ds[j].value, clamped) - r'.current[j])
                 <= Abs(CheckTarget(r, j, ds[j].value, clamped) - r.current[j])
    ensures Remaining(r', ds, n, clamped) <= Remaining(r, ds, n, clamped)
    ensures (exists j :: 0 <= j < n && ds[j].Some? &&
               Abs(CheckTarget(r, j, ds[j].value, clamped) - r'.current[j])
                 < Abs(CheckTarget(r, j, ds[j].value, clamped) - r.current[j]))
            ==> Remaining(r', ds, n, clamped) < Remaining(r, ds, n, clamped)
    decreases n
  {
    if n > 0 {
      RemainingDecreases(r, r', ds, n - 1, clamped);
    }
  }

  /** A pass over a registry that settles moves some servo only if it
      brings the total remaining distance down. */
  lemma PassProgress(r: Registry, ds: seq<Option<int>>, clamped: bool)
    requires Consistent(r)
    requires |ds| <= r.servoNum
    requires Settles(r, ds, clamped)
    ensures var p := Pass(r, ds, |ds|, clamped);
            p.1 ==> Remaining(p.0, ds, |ds|, clamped) < Remaining(r, ds, |ds|, clamped)
  {
    var p := Pass(r, ds, |ds|, clamped);
    PassCurrents(r, ds, |ds|, clamped);
    PassReports(r, ds, |ds|, clamped);
    forall j | 0 <= j < |ds| && ds[j].Some?
      ensures Abs(CheckTarget(r, j, ds[j].value, clamped) - p.0.current[j])
                <= Abs(CheckTarget(r, j, ds[j].value, clamped) - r.current[j])
      ensures Moves(r, ds, j, clamped) ==>
                Abs(CheckTarget(r, j, ds[j].value, clamped) - p.0.current[j])
                  < Abs(CheckTarget(r, j, ds[j].value, clamped) - r.current[j])
    {
      if Moves(r, ds, j, clamped) {
        assert ChannelSettles(r, j, ds[j].value, clamped);
        ChannelStepCloser(r, j, ds[j].value, clamped);
      }
    }
    RemainingDecreases(r, p.0, ds, |ds|, clamped);
  }

  /** One gradual step of a channel that is away from its checked target,
      whose step is positive and whose target is reachable, brings it
      strictly closer to that target. */
  lemma ChannelStepCloser(r: Registry, j: int, d: int, clamped: bool)
    requires Consistent(r)
    requires 0 <= j < r.servoNum
    requires r.step[j] > 0
    requires !clamped ==> r.minDeg[j] <= r.defl[j] + d <= r.maxDeg[j]
    requires r.current[j] != CheckTarget(r, j, d, clamped)
    ensures Abs(CheckTarget(r, j, d, clamped) - SteppedDegree(r, j, d))
              < Abs(CheckTarget(r, j, d, clamped) - r.current[j])
  {
    var t := Constrain(r.defl[j] + d, r.minDeg[j], r.maxDeg[j]);
    assert CheckTarget(r, j, d, clamped) == t;
    StepThenClampCloser(r.current[j], t, r.step[j], r.minDeg[j], r.maxDeg[j]);
  }

  /** `servosSlowTurnDeltaFromDefl` as written: passes repeat until one moves
      nothing, and then every listed servo sits exactly at its default
      plus offset. For a listed servo whose current degree lies inside its
      bounds, the loop only ends if that servo is at its target or has a
      target inside its bounds and a positive step; that is required here
      of every listed servo, which is stricter than the source for a servo
      left outside its bounds by a reconfiguration (see
      StepZeroOutsideSettles). The pause between passes is not modelled. */
  method ServosSlowTurnDeltaFromDefl(r: Registry, deltas: Option<seq<Option<int>>>) returns (r': Registry)
    requires Consistent(r)
    requires Accepted(r, deltas) ==> Settles(r, deltas.value, false)
    ensures Consistent(r') && SameConfig(r, r')
    ensures !Accepted(r, deltas) ==> r' == r
    ensures Accepted(r, deltas) ==>
              forall j :: 0 <= j < MaxServos ==>
                r'.current[j] == if j < |deltas.value| && deltas.value[j].Some?
                                 then r.defl[j] + deltas.value[j].value
                                 else r.current[j]
  {
    if !Accepted(r, deltas) {
      return r;
    }
    var ds := deltas.value;
    r' := r;
    while true
      invariant Consistent(r') && SameConfig(r, r')
      invariant Settles(r', ds, false)
      invariant forall j :: 0 <= j < MaxServos && !(j < |ds| && ds[j].Some?) ==> r'.current[j] == r.current[j]
      decreases Remaining(r', ds, |ds|, false)
    {
      var p := Pass(r', ds, |ds|, false);
      PassCurrents(r', ds, |ds|, false);
      PassReports(r', ds, |ds|, false);
      if !p.1 {
        break;
      }
      PassProgress(r', ds, false);
      PassKeepsSettles(r', ds, false);
      r' := p.0;
    }
  }

  /** The same loop with the corrected check, comparing with the clamped
      target. It ends whenever every listed servo not yet at its clamped
      target has a positive step, whatever the offsets, and leaves each listed servo at its clamped target. */
  method ServosSlowTurnDeltaFromDeflClamped(r: Registry, deltas: Option<seq<Option<int>>>) returns (r': Registry)
    requires Consistent(r)
    requires Accepted(r, deltas) ==> Settles(r, deltas.value, true)
    ensures Consistent(r') && SameConfig(r, r')
    ensures !Accepted(r, deltas) ==> r' == r
    ensures Accepted(r, deltas) ==>
              forall j :: 0 <= j < MaxServos ==>
                r'.current[j] == if j < |deltas.value| && deltas.value[j].Some?
                                 then Constrain(r.defl[j] + deltas.value[j].value, r.minDeg[j], r.maxDeg[j])
                                 else r.current[j]
  {
    if !Accepted(r, deltas) {
      return r;
    }
    var ds := deltas.value;
    r' := r;
    while true
      invariant Consistent(r') && SameConfig(r, r')
      invariant Settles(r', ds, true)
      invariant forall j :: 0 <= j < MaxServos && !(j < |ds| && ds[j].Some?) ==> r'.current[j] == r.current[j]
      decreases Remaining(r', ds, |ds|, true)
    {
      var p := Pass(r', ds, |ds|, true);
      PassCurrents(r', ds, |ds|, true);
      PassReports(r', ds, |ds|, true);
      if !p.1 {
        break;
      }
      PassProgress(r', ds, true);
      PassKeepsSettles(r', ds, true);
      r' := p.0;
    }
  }

  /** The registry after `k` as-written passes. */
  function Passes(r: Registry, ds: seq<Option<int>>, k: nat): (r': Registry)
    requires Consistent(r)
    requires |ds| <= r.servoNum
    ensures Consistent(r') && SameConfig(r, r')
    decreases k
  {
    if k == 0 then r else Passes(Pass(r, ds, |ds|, false).0, ds, k - 1)
  }

  /** Channel `j` has an offset whose default-plus-offset target lies
      outside the channel's bounds, while its current degree is inside. */
  predicate StuckAway(r: Registry, ds: seq<Option<int>>, j: int)
  {
    && Consistent(r)
    && |ds| <= r.servoNum
    && 0 <= j < |ds| && ds[j].Some?
    && !(r.minDeg[j] <= r.defl[j] + ds[j].value <= r.maxDeg[j])
    && InRange(r, j)
  }

  /** One as-written pass over such a channel reports movement and leaves
      the channel inside its bounds, hence still away from its target. */
  lemma PassKeepsStuck(r: Registry, ds: seq<Option<int>>, j: int)
    requires StuckAway(r, ds, j)
    ensures Pass(r, ds, |ds|, false).1
    ensures StuckAway(Pass(r, ds, |ds|, false).0, ds, j)
  {
    PassCurrents(r, ds, |ds|, false);
    PassReports(r, ds, |ds|, false);
    assert Moves(r, ds, j, false);
    var r1 := Pass(r, ds, |ds|, false).0;
    assert r1.current[j] == SteppedDegree(r, j, ds[j].value);
  }

  /** A listed channel whose default plus offset lies outside its bounds
      is stepped toward the clamped target, stays inside its bounds, and so
      is never equal to the unclamped value it is compared with: every
      as-written pass reports movement and the blocking loop never leaves. */
  lemma {:induction false} AsWrittenNeverSettles(r: Registry, ds: seq<Option<int>>, j: int, k: nat)
    requires StuckAway(r, ds, j)
    ensures StuckAway(Passes(r, ds, k), ds, j)
    ensures Pass(Passes(r, ds, k), ds, |ds|, false).1
    decreases k
  {
    PassKeepsStuck(r, ds, j);
    if k > 0 {
      AsWrittenNeverSettles(Pass(r, ds, |ds|, false).0, ds, j, k - 1);
    }
  }

  /** Channel `j` has an offset, a step of zero, and a current degree inside
      its bounds but away from its default plus offset. */
  predicate StalledAway(r: Registry, ds: seq<Option<int>>, j: int)
  {
    && Consistent(r)
    && |ds| <= r.servoNum
    && 0 <= j < |ds| && ds[j].Some?
    && r.step[j] == 0
    && InRange(r, j) && r.current[j] != r.defl[j] + ds[j].value
  }

  /** One as-written pass over such a channel reports movement without
      moving it. */
  lemma PassKeepsStalled(r: Registry, ds: seq<Option<int>>, j: int)
    requires StalledAway(r, ds, j)
    ensures Pass(r, ds, |ds|, false).1
    ensures Pass(r, ds, |ds|, false).0.current[j] == r.current[j]
    ensures StalledAway(Pass(r, ds, |ds|, false).0, ds, j)
  {
    PassCurrents(r, ds, |ds|, false);
    PassReports(r, ds, |ds|, false);
    assert Moves(r, ds, j, false);
    assert SteppedDegree(r, j, ds[j].value) == r.current[j];
  }

  /** A listed channel with step zero that is inside its bounds but away
      from its target never moves, so every as-written pass reports
      movement and the blocking loop never leaves. */
  lemma {:induction false} ZeroStepNeverSettles(r: Registry, ds: seq<Option<int>>, j: int, k: nat)
    requires StalledAway(r, ds, j)
    ensures Passes(r, ds, k).current[j] == r.current[j]
    ensures StalledAway(Passes(r, ds, k), ds, j)
    ensures Pass(Passes(r, ds, k), ds, |ds|, false).1
    decreases k
  {
    PassKeepsStalled(r, ds, j);
    if k > 0 {
      ZeroStepNeverSettles(Pass(r, ds, |ds|, false).0, ds, j, k - 1);
    }
  }

  /** A servo left outside narrowed bounds escapes both hangs: servo 1 is
      sent to 10, then given default 50, bounds [50, 180] and step 0. It
      does not meet `Settles` with offset 0, yet the first pass's clamp
      puts it at 50 and the second pass reports no movement, so the
      as-written loop ends. */
  lemma StepZeroOutsideSettles()
    ensures var r := ServoConfig(ServoTo(Init(), 1, 10), 1, 50, 50, 180, 0);
            && !Settles(r, [Some(0)], false)
            && Pass(r, [Some(0)], 1, false).1
            && Pass(r, [Some(0)], 1, false).0.current[0] == 50
            && !Pass(Pass(r, [Some(0)], 1, false).0, [Some(0)], 1, false).1
  {
    var r0 := ServoTo(Init(), 1, 10);
    ConsistentKeepsWithConfig(Init(), r0);
    var r := ServoConfig(r0, 1, 50, 50, 180, 0);
    assert !ChannelSettles(r, 0, 0, false);
    PassCurrents(r, [Some(0)], 1, false);
    PassReports(r, [Some(0)], 1, false);
    assert Moves(r, [Some(0)], 0, false);
    var r1 := Pass(r, [Some(0)], 1, false).0;
    PassReports(r1, [Some(0)], 1, false);
    assert !Moves(r1, [Some(0)], 0, false);
  }

  /** The smallest input that hangs the as-written loop: servo 1 at its
      start-up configuration (default 90, bounds [0, 180]) with offset 100. */
  lemma AsWrittenHangsOnOffset100(k: nat)
    ensures Pass(Passes(Init(), [Some(100)], k), [Some(100)], 1, false).1
  {
    AsWrittenNeverSettles(Init(), [Some(100)], 0, k);
  }

}

=== FILE: gradual.dfy ===
/** The arithmetic of one gradual step, separated from the registry: the
    degree a gradual turn commands, given the current degree, the already
    clamped target and the per-call step. */
module Gradual {
  import opened Numeric

  /** `x` lies on the closed segment between `a` and `b`. */
  predicate Between(x: int, a: int, b: int)
  {
    (a <= x <= b) || (b <= x <= a)
  }

  /** The degree commanded by one gradual step (nexusClone.ts:125-131 and
      154-160): land on the target when it is at most one step away,
      otherwise move one whole step toward it, and stay when already there.
      The result is the unique point between `cur` and `target` whose
      distance to the target is the old distance less one step, floored
      at zero, so a step never overshoots and never exceeds `step`. */
  function NextDegree(cur: int, target: int, step: nat): (n: int)
    ensures Between(n, cur, target)
    ensures Abs(target - n) == Max(Abs(target - cur) - step, 0)
    ensures Abs(n - cur) <= step
  {
    if 0 < Abs(target - cur) <= step then target
    else if target > cur then cur + step
    else if target < cur then cur - step
    else cur
  }

  /** The two facts in `NextDegree`'s contract pin its result down: any
      point with the same two properties is that result. */
  lemma NextDegreeUnique(cur: int, target: int, step: nat, x: int)
    requires Between(x, cur, target)
    requires Abs(target - x) == Max(Abs(target - cur) - step, 0)
    ensures x == NextDegree(cur, target, step)
  {
  }

  /** With a step of zero a gradual turn never moves. */
  lemma ZeroStepStalls(cur: int, target: int)
    ensures NextDegree(cur, target, 0) == cur
  {
  }

  /** The degree after `k` gradual steps toward the same target. */
  function Steps(cur: int, target: int, step: nat, k: nat): int
    decreases k
  {
    if k == 0 then cur else Steps(NextDegree(cur, target, step), target, step, k - 1)
  }

  /** After `k` steps the servo has covered `k * step` degrees of the way,
      or has arrived, and it never passes the target. */
  lemma {:induction false} StepsClosedForm(cur: int, target: int, step: nat, k: nat)
    ensures Steps(cur, target, step, k) ==
              if Abs(target - cur) <= k * step then target
              else if target > cur then cur + k * step
              else cur - k * step
    decreases k
  {
    if k > 0 {
      var next := NextDegree(cur, target, step);
      StepsClosedForm(next, target, step, k - 1);
      assert (k - 1) * step + step == k * step;
    }
  }

  /** Once at the target, every further step stays there. */
  lemma {:induction false} StepsStayAtTarget(target: int, step: nat, k: nat)
    ensures Steps(target, target, step, k) == target
    decreases k
  {
    if k > 0 {
      StepsStayAtTarget(target, step, k - 1);
    }
  }

  /** With a positive step the target is reached after exactly
      `ceil(distance / step)` steps and not before. */
  lemma ArrivalAfterCeil(cur: int, target: int, step: nat)
    requires step > 0
    ensures Steps(cur, target, step, CeilDiv(Abs(target - cur), step)) == target
    ensures forall k: nat :: k < CeilDiv(Abs(target - cur), step) ==>
              Steps(cur, target, step, k) != target
  {
    var d := Abs(target - cur);
    var q := CeilDiv(d, step);
    StepsClosedForm(cur, target, step, q);
    forall k: nat | k < q
      ensures Steps(cur, target, step, k) != target
    {
      StepsClosedForm(cur, target, step, k);
      MulMonotone(k, q - 1, step);
    }
  }

  lemma MulMonotone(a: nat, b: nat, c: nat)
    requires a <= b
    ensures a * c <= b * c
  {
    assert b * c == a * c + (b - a) * c;
  }

  /** Each step with a positive step strictly shortens the distance to the
      target, and clamping the commanded degree into a range that holds the
      target does not undo that. */
  lemma StepThenClampCloser(cur: int, target: int, step: nat, lo: int, hi: int)
    requires step > 0
    requires lo <= target <= hi
    requires cur != target
    ensures Abs(target - Constrain(NextDegree(cur, target, step), lo, hi)) < Abs(target - cur)
  {
    ConstrainNonExpansive(NextDegree(cur, target, step), lo, hi, target);
  }

}

=== FILE: motion.dfy ===
/** The single-servo operations of the motion controller: immediate
    positioning, the position and arrival queries, and one gradual step.
    Servo numbers are one-based. Several operations read a channel's bound
    or default before the range check in `servoTo`; for a servo number
    outside the active channels that value never reaches the registry, so
    here such a number leaves everything but the driver initialisation
    unchanged. */
module Motion {
  import opened Numeric
  import opened ServoRegistry
  import opened Gradual

  /** `_initialize`: resets the driver on the first call only. */
  function Initialize(r: Registry): (r': Registry)
    ensures r'.initialized
    ensures r.initialized ==> r' == r
    ensures !r.initialized ==> r'.calls == r.calls + [Reset(ResetAddress)]
    ensures r'.current == r.current && SameConfig(r, r')
  {
    if r.initialized then r
    else r.(initialized := true, calls := r.calls + [Reset(ResetAddress)])
  }

  /** The driver is reset at most once however often it is initialised. */
  lemma InitializeIdempotent(r: Registry)
    ensures Initialize(Initialize(r)) == Initialize(r)
  {
  }

  /** `servoTo`: a valid servo is sent to `degree` clamped into its bounds
      and the driver is told so; no other channel and no configuration
      changes. An invalid servo number only initialises the driver. */
  function ServoTo(r: Registry, servo: int, degree: int): (r': Registry)
    requires Shaped(r)
    ensures Shaped(r') && SameConfig(r, r') && r'.initialized
    ensures ValidServo(r, servo) ==>
              var i := servo - 1;
              && r'.current[i] == Constrain(degree, r.minDeg[i], r.maxDeg[i])
              && r'.calls == Initialize(r).calls + [SetServoPosition(servo, r'.current[i], PositionArg)]
    ensures ValidServo(r, servo) && Consistent(r) ==> InRange(r', servo - 1)
    ensures !ValidServo(r, servo) ==> r' == Initialize(r)
    ensures forall j :: 0 <= j < MaxServos && j != servo - 1 ==> r'.current[j] == r.current[j]
  {
    var r1 := Initialize(r);
    if ValidServo(r, servo) then
      var i := servo - 1;
      var d := Constrain(degree, r.minDeg[i], r.maxDeg[i]);
      assert Consistent(r) ==> ChannelOk(r, i);
      r1.(current := r1.current[i := d],
          calls := r1.calls + [SetServoPosition(servo, d, PositionArg)])
    else r1
  }

  /** `getServoCurrent`: the current degree of a valid servo, else 0. */
  function GetServoCurrent(r: Registry, servo: int): int
    requires Shaped(r)
  {
    if ValidServo(r, servo) then r.current[servo - 1] else 0
  }

  /** Reading back after `servoTo` yields exactly the clamped degree; an
      invalid servo number reads 0 whatever was commanded. */
  lemma ServoToThenGet(r: Registry, servo: int, degree: int)
    requires Shaped(r)
    ensures ValidServo(r, servo) ==>
              GetServoCurrent(ServoTo(r, servo, degree), servo)
                == Constrain(degree, r.minDeg[servo - 1], r.maxDeg[servo - 1])
    ensures !ValidServo(r, servo) ==> GetServoCurrent(ServoTo(r, servo, degree), servo) == 0
  {
  }

  /** The degree `getServoCurrent` reads is the one `ServoIsAtDegree`
      confirms, exactly for a valid servo; an invalid servo number reads 0
      and is never reported at any degree. */
  lemma GetThenIsAt(r: Registry, servo: int)
    requires Shaped(r)
    ensures ServoIsAtDegree(r, servo, GetServoCurrent(r, servo), true) <==> ValidServo(r, servo)
    ensures !ValidServo(r, servo) ==> GetServoCurrent(r, servo) == 0
  {
  }

  /** Commanding a servo to where it already is, inside its bounds, leaves
      every current degree as it was. */
  lemma ServoToCurrentKeeps(r: Registry, servo: int)
    requires Shaped(r)
    requires ValidServo(r, servo) && InRange(r, servo - 1)
    ensures ServoTo(r, servo, GetServoCurrent(r, servo)).current == r.current
  {
    var r' := ServoTo(r, servo, GetServoCurrent(r, servo));
    assert r'.current == r.current[servo - 1 := r.current[servo - 1]];
  }

  /** Repeating a `servoTo` leaves the degrees where the first one put them. */
  lemma ServoToRepeat(r: Registry, servo: int, degree: int)
    requires Shaped(r)
    ensures ServoTo(ServoTo(r, servo, degree), servo, degree).current == ServoTo(r, servo, degree).current
  {
    var r1 := ServoTo(r, servo, degree);
    var r2 := ServoTo(r1, servo, degree);
    if ValidServo(r, servo) {
      var i := servo - 1;
      if r.minDeg[i] <= r.maxDeg[i] {
        ConstrainIdempotent(degree, r.minDeg[i], r.maxDeg[i]);
      }
      assert r2.current == r1.current[i := r1.current[i]];
    }
  }

  /** The value the source reads for a channel's bound or default: the
      stored entry when the index exists in the arrays, and a stand-in 0
      otherwise (JavaScript yields `undefined`, which only ever reaches a
      call that discards it). */
  function BoundOf(r: Registry, servo: int, dir: Dir): int
    requires Shaped(r)
  {
    if 1 <= servo <= MaxServos then
      match dir
      case Lower => r.minDeg[servo - 1]
      case Upper => r.maxDeg[servo - 1]
    else 0
  }

  function DeflOf(r: Registry, servo: int): int
    requires Shaped(r)
  {
    if 1 <= servo <= MaxServos then r.defl[servo - 1] else 0
  }

  /** `servoToMinMax`: sends a servo to its configured lower or upper bound. */
  function ServoToMinMax(r: Registry, servo: int, dir: Dir): (r': Registry)
    requires Consistent(r)
    ensures Shaped(r') && SameConfig(r, r')
    ensures ValidServo(r, servo) ==>
              r'.current[servo - 1] == (if dir == Lower then r.minDeg[servo - 1] else r.maxDeg[servo - 1])
    ensures forall j :: 0 <= j < MaxServos && j != servo - 1 ==> r'.current[j] == r.current[j]
    ensures !ValidServo(r, servo) ==> r'.current == r.current
  {
    assert ValidServo(r, servo) ==> ChannelOk(r, servo - 1);
    ServoTo(r, servo, BoundOf(r, servo, dir))
  }

  /** `servoDeltaFromDefl`: sends a servo `delta` degrees away from its
      default, clamped into its bounds. */
  function ServoDeltaFromDefl(r: Registry, servo: int, delta: int): (r': Registry)
    requires Consistent(r)
    ensures Shaped(r') && SameConfig(r, r')
    ensures ValidServo(r, servo) ==>
              && InRange(r', servo - 1)
              && r'.current[servo - 1] == Constrain(r.defl[servo - 1] + delta, r.minDeg[servo - 1], r.maxDeg[servo - 1])
              && (r.minDeg[servo - 1] <= r.defl[servo - 1] + delta <= r.maxDeg[servo - 1] ==>
                    r'.current[servo - 1] == r.defl[servo - 1] + delta)
              && (delta == 0 ==> r'.current[servo - 1] == r.defl[servo - 1])
    ensures forall j :: 0 <= j < MaxServos && j != servo - 1 ==> r'.current[j] == r.current[j]
    ensures !ValidServo(r, servo) ==> r'.current == r.current
  {
    assert ValidServo(r, servo) ==> ChannelOk(r, servo - 1);
    ServoTo(r, servo, DeflOf(r, servo) + delta)
  }

  /** `ServoIsAtDegree`: for a valid servo, whether it is at `degree` when
      `check` holds and whether it is elsewhere otherwise; an invalid servo
      number answers false either way. */
  function ServoIsAtDegree(r: Registry, servo: int, degree: int, check: bool): (b: bool)
    requires Shaped(r)
    ensures b ==> ValidServo(r, servo)
  {
    if ValidServo(r, servo) then
      if check then GetServoCurrent(r, servo) == degree else !(GetServoCurrent(r, servo) == degree)
    else false
  }

  /** The two polarities of the arrival query are each other's negation on
      a valid servo and both false on an invalid one. */
  lemma IsAtDegreePolarity(r: Registry, servo: int, degree: int)
    requires Shaped(r)
    ensures ValidServo(r, servo) ==>
              ServoIsAtDegree(r, servo, degree, false) == !ServoIsAtDegree(r, servo, degree, true)
    ensures ServoIsAtDegree(r, servo, degree, true) <==>
              ValidServo(r, servo) && r.current[servo - 1] == degree
    ensures !ValidServo(r, servo) ==>
              !ServoIsAtDegree(r, servo, degree, true) && !ServoIsAtDegree(r, servo, degree, false)
  {
  }

  /** `ServoIsAtMinMax`: the arrival query at a configured bound. */
  function ServoIsAtMinMax(r: Registry, servo: int, dir: Dir, check: bool): (b: bool)
    requires Shaped(r)
    ensures b <==> ValidServo(r, servo) &&
                   ((r.current[servo - 1] == (if dir == Lower then r.minDeg[servo - 1] else r.maxDeg[servo - 1])) == check)
  {
    ServoIsAtDegree(r, servo, BoundOf(r, servo, dir), check)
  }

  /** `servoIsDeltaFromDefl`: the arrival query at default plus `delta`,
      compared without clamping. */
  function ServoIsDeltaFromDefl(r: Registry, servo: int, delta: int, check: bool): (b: bool)
    requires Shaped(r)
    ensures b <==> ValidServo(r, servo) &&
                   ((r.current[servo - 1] == r.defl[servo - 1] + delta) == check)
  {
    ServoIsAtDegree(r, servo, DeflOf(r, servo) + delta, check)
  }

  /** After `servoToMinMax` the servo answers that it is at that bound. */
  lemma ToMinMaxThenIsAt(r: Registry, servo: int, dir: Dir)
    requires Consistent(r)
    requires ValidServo(r, servo)
    ensures ServoIsAtMinMax(ServoToMinMax(r, servo, dir), servo, dir, true)
  {
  }

  /** `servoSlowTurn`: one gradual step of a valid servo toward `degree`
      clamped into its bounds. The commanded degree goes through `servoTo`,
      which clamps it again; with the current degree inside the bounds this
      is a step of at most `step` degrees that never overshoots. */
  function ServoSlowTurn(r: Registry, servo: int, degree: int): (r': Registry)
    requires Consistent(r)
    ensures Shaped(r') && SameConfig(r, r') && r'.initialized
    ensures ValidServo(r, servo) && InRange(r, servo - 1) ==>
              var i := servo - 1;
              var t := Constrain(degree, r.minDeg[i], r.maxDeg[i]);
              && InRange(r', i)
              && Between(r'.current[i], r.current[i], t)
              && Abs(t - r'.current[i]) == Max(Abs(t - r.current[i]) - r.step[i], 0)
    ensures forall j :: 0 <= j < MaxServos && j != servo - 1 ==> r'.current[j] == r.current[j]
    ensures !ValidServo(r, servo) ==> r' == Initialize(r)
  {
    if !ValidServo(r, servo) then Initialize(r)
    else
      var i := servo - 1;
      assert ChannelOk(r, i);
      var target := Constrain(degree, r.minDeg[i], r.maxDeg[i]);
      ServoTo(r, servo, NextDegree(r.current[i], target, r.step[i]))
  }

  /** `servoSlowTurnMinMax`: one gradual step toward a configured bound. */
  function ServoSlowTurnMinMax(r: Registry, servo: int, dir: Dir): (r': Registry)
    requires Consistent(r)
    ensures r' == ServoSlowTurn(r, servo, BoundOf(r, servo, dir))
    ensures ValidServo(r, servo) && InRange(r, servo - 1) ==>
              var i := servo - 1;
              var t := if dir == Lower then r.minDeg[i] else r.maxDeg[i];
              && Between(r'.current[i], r.current[i], t)
              && Abs(t - r'.current[i]) == Max(Abs(t - r.current[i]) - r.step[i], 0)
  {
    assert ValidServo(r, servo) ==> ChannelOk(r, servo - 1);
    ServoSlowTurn(r, servo, BoundOf(r, servo, dir))
  }

  /** `servoSlowTurnDeltaFromDefl`: one gradual step toward default plus
      `delta`, clamped into the servo's bounds. */
  function ServoSlowTurnDeltaFromDefl(r: Registry, servo: int, delta: int): (r': Registry)
    requires Consistent(r)
    ensures Shaped(r') && SameConfig(r, r') && r'.initialized
    ensures ValidServo(r, servo) && InRange(r, servo - 1) ==>
              var i := servo - 1;
              var t := Constrain(r.defl[i] + delta, r.minDeg[i], r.maxDeg[i]);
              && InRange(r', i)
              && Between(r'.current[i], r.current[i], t)
              && Abs(t - r'.current[i]) == Max(Abs(t - r.current[i]) - r.step[i], 0)
    ensures forall j :: 0 <= j < MaxServos && j != servo - 1 ==> r'.current[j] == r.current[j]
    ensures !ValidServo(r, servo) ==> r' == Initialize(r)
  {
    if !ValidServo(r, servo) then Initialize(r)
    else
      var i := servo - 1;
      assert ChannelOk(r, i);
      var target := Constrain(r.defl[i] + delta, r.minDeg[i], r.maxDeg[i]);
      var cur := r.current[i];
      if 0 < Abs(target - cur) <= r.step[i] then ServoTo(r, servo, target)
      else
        var newDegree :=
          if target > cur then cur + r.step[i]
          else if target < cur then cur - r.step[i]
          else cur;
        ServoTo(r, servo, newDegree)
  }

  /** The relative gradual turn is the absolute one aimed at default plus
      `delta`. */
  lemma SlowTurnDeltaIsSlowTurn(r: Registry, servo: int, delta: int)
    requires Consistent(r)
    ensures ServoSlowTurnDeltaFromDefl(r, servo, delta) == ServoSlowTurn(r, servo, DeflOf(r, servo) + delta)
  {
  }

  /** The degree channel `i` is left at by one gradual step toward default
      plus `delta`, computed from that channel's entries alone. */
  function SteppedDegree(r: Registry, i: int, delta: int): int
    requires Shaped(r)
    requires 0 <= i < MaxServos
    requires r.step[i] >= 0
  {
    var t := Constrain(r.defl[i] + delta, r.minDeg[i], r.maxDeg[i]);
    Constrain(NextDegree(r.current[i], t, r.step[i]), r.minDeg[i], r.maxDeg[i])
  }

  /** The relative gradual turn of a valid servo leaves it at the degree
      computed from its own channel: no other channel can influence it. */
  lemma SlowTurnDeltaChannel(r: Registry, servo: int, delta: int)
    requires Consistent(r)
    requires ValidServo(r, servo)
    ensures ServoSlowTurnDeltaFromDefl(r, servo, delta).current[servo - 1] == SteppedDegree(r, servo - 1, delta)
  {
  }

  /** Reconfiguring a servo does not move it back inside its new bounds,
      and a gradual turn from outside them is pulled straight back inside:
      the step is then longer than `step`. Here servo 1 is sent to 10
      degrees, then given bounds [50, 180] and step 5; it stays at 10 and
      the next gradual turn toward 90 jumps 40 degrees, to 50. */
  lemma SlowTurnFromOutsideJumps()
    ensures var r := ServoConfig(ServoTo(Init(), 1, 10), 1, 90, 50, 180, 5);
            && r.current[0] == 10
            && !InRange(r, 0)
            && ServoSlowTurn(r, 1, 90).current[0] == 50
  {
    ConsistentKeepsWithConfig(Init(), ServoTo(Init(), 1, 10));
  }

  /** `servoSlowTurn` applied `k` times with the same target. */
  function SlowTurnTimes(r: Registry, servo: int, degree: int, k: nat): (r': Registry)
    requires Consistent(r)
    ensures Consistent(r') && SameConfig(r, r')
    decreases k
  {
    if k == 0 then r
    else
      var r1 := ServoSlowTurn(r, servo, degree);
      ConsistentKeepsWithConfig(r, r1);
      SlowTurnTimes(r1, servo, degree, k - 1)
  }

  /** Repeated gradual turns of a servo that starts inside its bounds follow
      the pure step sequence toward the clamped target. */
  lemma {:induction false} SlowTurnTimesFollowsSteps(r: Registry, servo: int, degree: int, k: nat)
    requires Consistent(r)
    requires ValidServo(r, servo) && InRange(r, servo - 1)
    ensures var i := servo - 1;
            SlowTurnTimes(r, servo, degree, k).current[i]
              == Steps(r.current[i], Constrain(degree, r.minDeg[i], r.maxDeg[i]), r.step[i], k)
    ensures InRange(SlowTurnTimes(r, servo, degree, k), servo - 1)
    decreases k
  {
    if k > 0 {
      var i := servo - 1;
      assert ChannelOk(r, i);
      var t := Constrain(degree, r.minDeg[i], r.maxDeg[i]);
      var r1 := ServoSlowTurn(r, servo, degree);
      ConsistentKeepsWithConfig(r, r1);
      NextDegreeUnique(r.current[i], t, r.step[i], r1.current[i]);
      SlowTurnTimesFollowsSteps(r1, servo, degree, k - 1);
    }
  }

  /** With a positive step a servo inside its bounds reaches the clamped
      target after exactly `ceil(distance / step)` gradual turns, not
      earlier, and stays there on every further turn. */
  lemma SlowTurnArrives(r: Registry, servo: int, degree: int, extra: nat)
    requires Consistent(r)
    requires ValidServo(r, servo) && InRange(r, servo - 1)
    requires r.step[servo - 1] > 0
    ensures var i := servo - 1;
            var t := Constrain(degree, r.minDeg[i], r.maxDeg[i]);
            var n := CeilDiv(Abs(t - r.current[i]), r.step[i]);
            && GetServoCurrent(SlowTurnTimes(r, servo, degree, n), servo) == t
            && GetServoCurrent(SlowTurnTimes(r, servo, degree, n + extra), servo) == t
            && (forall k: nat :: k < n ==> GetServoCurrent(SlowTurnTimes(r, servo, degree, k), servo) != t)
  {
    var i := servo - 1;
    var t := Constrain(degree, r.minDeg[i], r.maxDeg[i]);
    var n := CeilDiv(Abs(t - r.current[i]), r.step[i]);
    ArrivalAfterCeil(r.current[i], t, r.step[i]);
    SlowTurnTimesFollowsSteps(r, servo, degree, n);
    SlowTurnTimesFollowsSteps(r, servo, degree, n + extra);
    StepsSplit(r.current[i], t, r.step[i], n, extra);
    StepsStayAtTarget(t, r.step[i], extra);
    forall k: nat | k < n
      ensures GetServoCurrent(SlowTurnTimes(r, servo, degree, k), servo) != t
    {
      SlowTurnTimesFollowsSteps(r, servo, degree, k);
    }
  }

  /** Steps compose: `a + b` steps are `a` steps followed by `b`. */
  lemma {:induction false} StepsSplit(cur: int, target: int, step: nat, a: nat, b: nat)
    ensures Steps(cur, target, step, a + b) == Steps(Steps(cur, target, step, a), target, step, b)
    decreases a
  {
    if a > 0 {
      StepsSplit(NextDegree(cur, target, step), target, step, a - 1, b);
    }
  }

  /** Servo 1 at its start-up configuration (default 90, step 5) moved 30
      degrees from default gradually: 95, 100, ... arriving at 120 on the
      sixth turn; offset 23 instead passes 95, 100, 105, 110 and lands on
      113 with a final short step on the fifth. */
  lemma StartupSlowTurnExamples()
    ensures GetServoCurrent(SlowTurnTimes(Init(), 1, 120, 6), 1) == 120
    ensures GetServoCurrent(SlowTurnTimes(Init(), 1, 120, 7), 1) == 120
    ensures GetServoCurrent(SlowTurnTimes(Init(), 1, 113, 4), 1) == 110
    ensures GetServoCurrent(SlowTurnTimes(Init(), 1, 113, 5), 1) == 113
  {
    var r := Init();
    SlowTurnTimesFollowsSteps(r, 1, 120, 6);
    SlowTurnTimesFollowsSteps(r, 1, 120, 7);
    SlowTurnTimesFollowsSteps(r, 1, 113, 4);
    SlowTurnTimesFollowsSteps(r, 1, 113, 5);
    StepsClosedForm(90, 120, 5, 6);
    StepsClosedForm(90, 120, 5, 7);
    StepsClosedForm(90, 113, 5, 4);
    StepsClosedForm(90, 113, 5, 5);
  }

  /** With a step of zero a gradual turn of a servo inside its bounds
      changes no current degree. */
  lemma ZeroStepSlowTurnStalls(r: Registry, servo: int, degree: int)
    requires Consistent(r)
    requires ValidServo(r, servo) && InRange(r, servo - 1)
    requires r.step[servo - 1] == 0
    ensures ServoSlowTurn(r, servo, degree).current == r.current
  {
    var i := servo - 1;
    var r' := ServoSlowTurn(r, servo, degree);
    assert r'.current == r.current[i := r.current[i]];
  }

}

=== FILE: numeric.dfy ===
/** Integer helpers shared by the registry and the motion controller:
    absolute value, maximum and MakeCode's `Math.constrain`. */
module Numeric {

  function Abs(x: int): nat
  {
    if x < 0 then -x else x
  }

  function Max(a: int, b: int): int
  {
    if a < b then b else a
  }

  /** `Math.constrain(x, lo, hi)`: the low bound is tested first, so when the
      bounds are inverted a value below `lo` still yields `lo`. */
  function Constrain(x: int, lo: int, hi: int): (r: int)
    ensures lo <= hi ==> lo <= r <= hi
    ensures lo <= x <= hi ==> r == x
    ensures x < lo ==> r == lo
    ensures lo <= hi && hi < x ==> r == hi
  {
    if x < lo then lo else if x > hi then hi else x
  }

  /** Clamping never moves a value away from a point inside the range. */
  lemma ConstrainNonExpansive(x: int, lo: int, hi: int, t: int)
    requires lo <= t <= hi
    ensures Abs(t - Constrain(x, lo, hi)) <= Abs(t - x)
  {
  }

  /** Clamping twice into the same range is clamping once. */
  lemma ConstrainIdempotent(x: int, lo: int, hi: int)
    requires lo <= hi
    ensures Constrain(Constrain(x, lo, hi), lo, hi) == Constrain(x, lo, hi)
  {
  }

  /** Ceiling of `d / s` for a positive divisor. */
  function CeilDiv(d: nat, s: nat): (q: nat)
    requires s > 0
    ensures q * s >= d
    ensures q == 0 || (q - 1) * s < d
  {
    var q := (d + s - 1) / s;
    var rem := (d + s - 1) % s;
    assert d + s - 1 == q * s + rem;
    assert q * s - s == (q - 1) * s;
    q
  }

}

=== FILE: options.dfy ===
/** An optional value, standing for the JavaScript `null` that the bulk
    operations of the servo block library test array entries against. */
module Options {

  datatype Option<+T> = None | Some(value: T)

}

=== FILE: registry.dfy ===
/** The servo registry of the nexusClone block library: five parallel
    per-channel arrays (default, current, min, max and gradual step), the
    number of channels the selected board drives, the one-time driver
    initialisation flag and the calls issued to the PCA9685 driver.
    User-facing servo numbers are one-based; storage is zero-based. */
module ServoRegistry {
  import opened Numeric
  import opened Options

  /** Length of every per-channel array (nexusClone.ts:35-39). */
  const MaxServos := 12
  /** Range every bound, default and step is clamped into. */
  const MaxDegree := 180
  /** Address handed to the driver's one-time reset. */
  const ResetAddress := 106
  /** Last argument of every position command sent to the driver. */
  const PositionArg := 64

  datatype Board = NexusBit | ThunderBitV2 | ThunderBitV1

  /** `servoDir`: which configured bound a servo is sent to. */
  datatype Dir = Lower | Upper

  /** A call into the PCA9685 driver, recorded rather than performed. */
  datatype DriverCall =
    | Reset(address: int)
    | SetServoPosition(servo: int, degree: int, arg: int)

  datatype Registry = Registry(
    servoNum: int,
    defl: seq<int>,
    current: seq<int>,
    minDeg: seq<int>,
    maxDeg: seq<int>,
    step: seq<int>,
    initialized: bool,
    calls: seq<DriverCall>)

  /** Every array holds one entry per hardware channel and the active count fits. */
  predicate Shaped(r: Registry)
  {
    && |r.defl| == MaxServos
    && |r.current| == MaxServos
    && |r.minDeg| == MaxServos
    && |r.maxDeg| == MaxServos
    && |r.step| == MaxServos
    && 0 <= r.servoNum <= MaxServos
  }

  /** Bounds inside [0, 180] in order, the default between them and a step
      inside [0, 180]. */
  predicate ChannelBounds(lo: int, hi: int, defl: int, step: int)
  {
    && 0 <= lo <= hi <= MaxDegree
    && lo <= defl <= hi
    && 0 <= step <= MaxDegree
  }

  /** The configuration of channel `i` is within the promised bounds. */
  predicate ChannelOk(r: Registry, i: int)
    requires Shaped(r)
    requires 0 <= i < MaxServos
  {
    ChannelBounds(r.minDeg[i], r.maxDeg[i], r.defl[i], r.step[i])
  }

  /** The registry invariant. The current degree is deliberately absent:
      reconfiguring a channel never re-clamps it. */
  predicate Consistent(r: Registry)
  {
    && Shaped(r)
    && forall i :: 0 <= i < MaxServos ==>
         ChannelBounds(r.minDeg[i], r.maxDeg[i], r.defl[i], r.step[i])
  }

  /** Two registries agree on everything but the current degrees, the
      initialisation flag and the driver calls. */
  predicate SameConfig(r: Registry, r': Registry)
  {
    && r'.servoNum == r.servoNum
    && r'.defl == r.defl
    && r'.minDeg == r.minDeg
    && r'.maxDeg == r.maxDeg
    && r'.step == r.step
  }

  /** The invariant depends on the configuration arrays alone. */
  lemma ConsistentKeepsWithConfig(r: Registry, r': Registry)
    requires Consistent(r)
    requires Shaped(r')
    requires r'.defl == r.defl && r'.minDeg == r.minDeg && r'.maxDeg == r.maxDeg && r'.step == r.step
    ensures Consistent(r')
  {
    forall i | 0 <= i < MaxServos
      ensures ChannelOk(r', i)
    {
      assert ChannelOk(r, i);
    }
  }

  /** A one-based servo number addressing one of the active channels. */
  predicate ValidServo(r: Registry, servo: int)
  {
    1 <= servo <= r.servoNum
  }

  /** Current degree of channel `i` lies inside its configured bounds. */
  predicate InRange(r: Registry, i: int)
    requires Shaped(r)
    requires 0 <= i < MaxServos
  {
    r.minDeg[i] <= r.current[i] <= r.maxDeg[i]
  }

  /** The state at start-up: twelve channels, every one at 90 degrees with
      full range and a step of 5. */
  function Init(): (r: Registry)
    ensures Consistent(r)
    ensures r.servoNum == MaxServos && !r.initialized && r.calls == []
    ensures forall i :: 0 <= i < MaxServos ==>
              && r.current[i] == r.defl[i] == 90
              && r.minDeg[i] == 0 && r.maxDeg[i] == MaxDegree && r.step[i] == 5
              && InRange(r, i)
  {
    Registry(
      MaxServos,
      seq(MaxServos, _ => 90),
      seq(MaxServos, _ => 90),
      seq(MaxServos, _ => 0),
      seq(MaxServos, _ => MaxDegree),
      seq(MaxServos, _ => 5),
      false,
      [])
  }

  /** Number of channels a board drives. */
  function ServoCount(b: Board): nat
  {
    match b
    case NexusBit => 12
    case ThunderBitV2 => 8
    case ThunderBitV1 => 4
  }

  /** `selectBoard`: only the active channel count changes; the arrays keep
      their contents, so the invariant survives a board switch. */
  function SelectBoard(r: Registry, b: Board): (r': Registry)
    ensures r'.servoNum == ServoCount(b)
    ensures 0 < r'.servoNum <= MaxServos && r'.servoNum % 4 == 0
    ensures r'.current == r.current && r'.calls == r.calls && r'.initialized == r.initialized
    ensures r'.defl == r.defl && r'.minDeg == r.minDeg && r'.maxDeg == r.maxDeg && r'.step == r.step
    ensures Consistent(r) ==> Consistent(r')
  {
    var r' := r.(servoNum := ServoCount(b));
    if Consistent(r) then ConsistentKeepsWithConfig(r, r'); r' else r'
  }

  /** Different boards drive different numbers of channels. */
  lemma ServoCountInjective(a: Board, b: Board)
    ensures ServoCount(a) == ServoCount(b) <==> a == b
  {
  }

  /** `servoConfig`: a valid servo gets clamped bounds, default and step;
      any other servo number leaves the registry untouched. The maximum is
      tested against the raw minimum, which turns out to give the larger of
      the two clamped bounds. */
  function ServoConfig(r: Registry, servo: int, deflDegree: int, minDegree: int,
                       maxDegree: int, delta: int): (r': Registry)
    requires Shaped(r)
    ensures Shaped(r')
    ensures !ValidServo(r, servo) ==> r' == r
    ensures ValidServo(r, servo) ==>
              var i := servo - 1;
              && ChannelOk(r', i)
              && r'.minDeg[i] == Constrain(minDegree, 0, MaxDegree)
              && r'.maxDeg[i] == Max(r'.minDeg[i], Constrain(maxDegree, 0, MaxDegree))
              && (Constrain(maxDegree, 0, MaxDegree) < minDegree ==> r'.maxDeg[i] == r'.minDeg[i])
              && r'.defl[i] == Constrain(deflDegree, r'.minDeg[i], r'.maxDeg[i])
              && r'.step[i] == Constrain(delta, 0, MaxDegree)
    ensures forall j :: 0 <= j < MaxServos && j != servo - 1 ==>
              && r'.defl[j] == r.defl[j] && r'.minDeg[j] == r.minDeg[j]
              && r'.maxDeg[j] == r.maxDeg[j] && r'.step[j] == r.step[j]
    ensures r'.current == r.current && r'.servoNum == r.servoNum && r'.calls == r.calls && r'.initialized == r.initialized
    ensures Consistent(r) ==> Consistent(r')
  {
    if !ValidServo(r, servo) then r
    else
      var i := servo - 1;
      var lo := Constrain(minDegree, 0, MaxDegree);
      var hi := if Constrain(maxDegree, 0, MaxDegree) >= minDegree
                then Constrain(maxDegree, 0, MaxDegree) else lo;
      var r' := r.(minDeg := r.minDeg[i := lo],
                   maxDeg := r.maxDeg[i := hi],
                   defl := r.defl[i := Constrain(deflDegree, lo, hi)],
                   step := r.step[i := Constrain(delta, 0, MaxDegree)]);
      assert Consistent(r) ==> Consistent(r') by {
        if Consistent(r) {
          forall j | 0 <= j < MaxServos
            ensures ChannelOk(r', j)
          {
            if j != i { assert ChannelOk(r, j); }
          }
        }
      }
      r'
  }

  /** Configuring servo 1 with default 200 stores default 180; with minimum
      100 and maximum 50 the maximum collapses to 100. */
  lemma ServoConfigExamples()
    ensures ServoConfig(Init(), 1, 200, 0, 180, 5).defl[0] == 180
    ensures ServoConfig(Init(), 1, 90, 100, 50, 5).maxDeg[0] == 100
    ensures ServoConfig(Init(), 1, 90, 100, 50, 5).defl[0] == 100
  {
  }

  /** An array argument the bulk operations accept: present, and no longer
      than the number of active channels. */
  predicate Accepted<T>(r: Registry, a: Option<seq<T>>)
  {
    a.Some? && |a.value| <= r.servoNum
  }

  /** `servosDeflAdjust`: shifts the defaults of a prefix of channels by the
      given amounts, re-clamped into each channel's bounds. */
  function ServosDeflAdjust(r: Registry, deflDegrees: Option<seq<int>>): (r': Registry)
    requires Consistent(r)
    ensures Consistent(r')
    ensures !Accepted(r, deflDegrees) ==> r' == r
    ensures Accepted(r, deflDegrees) ==>
              forall i :: 0 <= i < |deflDegrees.value| ==>
                && r.minDeg[i] <= r'.defl[i] <= r.maxDeg[i]
                && (r.minDeg[i] <= r.defl[i] + deflDegrees.value[i] <= r.maxDeg[i] ==>
                      r'.defl[i] == r.defl[i] + deflDegrees.value[i])
                && (r.defl[i] + deflDegrees.value[i] > r.maxDeg[i] ==> r'.defl[i] == r.maxDeg[i])
                && (r.defl[i] + deflDegrees.value[i] < r.minDeg[i] ==> r'.defl[i] == r.minDeg[i])
                && (deflDegrees.value[i] >= 0 ==> r.defl[i] <= r'.defl[i])
                && (deflDegrees.value[i] <= 0 ==> r'.defl[i] <= r.defl[i])
    ensures forall i :: 0 <= i < MaxServos && (!Accepted(r, deflDegrees) || i >= |deflDegrees.value|) ==>
              r'.defl[i] == r.defl[i]
    ensures r'.current == r.current && r'.minDeg == r.minDeg && r'.maxDeg == r.maxDeg
    ensures r'.step == r.step && r'.servoNum == r.servoNum && r'.calls == r.calls && r'.initialized == r.initialized
  {
    if !Accepted(r, deflDegrees) then r
    else
      var ds := deflDegrees.value;
      var r' := r.(defl := seq(MaxServos, i requires 0 <= i < MaxServos =>
                                 if i < |ds| then AdjustedDefault(r.defl[i], r.minDeg[i], r.maxDeg[i], ds[i])
                                 else r.defl[i]));
      assert forall j :: 0 <= j < MaxServos ==> r'.defl[j] == (if j < |ds| then AdjustedDefault(r.defl[j], r.minDeg[j], r.maxDeg[j], ds[j]) else r.defl[j]);
      r'
  }

  /** A default shifted by `d` and re-clamped: it stays in the bounds, takes
      the shifted value when that is inside them, stops at the bound it
      would overshoot, and never moves against the sign of `d`. */
  function AdjustedDefault(defl: int, lo: int, hi: int, d: int): (n: int)
    requires lo <= defl <= hi
    ensures lo <= n <= hi
    ensures lo <= defl + d <= hi ==> n == defl + d
    ensures defl + d > hi ==> n == hi
    ensures defl + d < lo ==> n == lo
    ensures d >= 0 ==> defl <= n
    ensures d <= 0 ==> n <= defl
  {
    Constrain(defl + d, lo, hi)
  }

  /** Adjusting every default by zero changes nothing. */
  lemma DeflAdjustByZero(r: Registry, n: nat)
    requires Consistent(r)
    requires n <= r.servoNum
    ensures ServosDeflAdjust(r, Some(seq(n, _ => 0))) == r
  {
    var r' := ServosDeflAdjust(r, Some(seq(n, _ => 0)));
    assert r'.defl == r.defl;
  }

  /** `servoSetDelta`: every present, positive entry becomes that channel's
      step, capped at 180; all other steps stay. */
  function ServoSetDelta(r: Registry, deltas: Option<seq<Option<int>>>): (r': Registry)
    requires Consistent(r)
    ensures Consistent(r')
    ensures !Accepted(r, deltas) ==> r' == r
    ensures forall i :: 0 <= i < MaxServos ==>
              if Accepted(r, deltas) && i < |deltas.value|
                 && deltas.value[i].Some? && deltas.value[i].value > 0
              then 0 < r'.step[i] <= MaxDegree
                   && (deltas.value[i].value <= MaxDegree ==> r'.step[i] == deltas.value[i].value)
                   && (deltas.value[i].value > MaxDegree ==> r'.step[i] == MaxDegree)
              else r'.step[i] == r.step[i]
    ensures r'.current == r.current && r'.minDeg == r.minDeg && r'.maxDeg == r.maxDeg
    ensures r'.defl == r.defl && r'.servoNum == r.servoNum && r'.calls == r.calls && r'.initialized == r.initialized
  {
    if !Accepted(r, deltas) then r
    else
      var ds := deltas.value;
      var r' := r.(step := seq(MaxServos, i requires 0 <= i < MaxServos =>
                                 if i < |ds| && ds[i].Some? && ds[i].value > 0
                                 then Constrain(ds[i].value, 0, MaxDegree)
                                 else r.step[i]));
      assert Consistent(r') by {
        forall j | 0 <= j < MaxServos
          ensures ChannelOk(r', j)
        {
          assert ChannelOk(r, j);
        }
      }
      r'
  }

  /** Setting the same steps twice is setting them once. */
  lemma SetDeltaIdempotent(r: Registry, deltas: Option<seq<Option<int>>>)
    requires Consistent(r)
    ensures ServoSetDelta(ServoSetDelta(r, deltas), deltas) == ServoSetDelta(r, deltas)
  {
    var r1 := ServoSetDelta(r, deltas);
    var r2 := ServoSetDelta(r1, deltas);
    assert r2.step == r1.step;
  }

}
